=== FILE: README.md ===
# AdaptiveMusic extension: playback bookkeeping and music-state files

This project models the core of a SourceMod extension that lets game scripts drive the FMOD Studio
audio engine and keeps a music-state file next to each game save. The model covers two parts.

- **Playback bookkeeping** (`extension.cpp`). The extension tracks the loaded bank name, the
  started event path, the buffered timeline position and the known pause state. The model has
  the transitions `LoadFMODBank`, `StartFMODEvent`, `StopFMODEvent`,
  `Get/SetCurrentFMODTimelinePosition` and `SetFMODPausedState`. It also has the bank-name helpers
  `SanitizeBankName` and `GetFMODBankPath`. FMOD is opaque. Each engine outcome the code inspects
  is a parameter of the transition: a success flag, or the answer of a timeline query. Each
  transition returns a `Step`: the status code, the next state, and the engine calls it made, in
  order.
- **Music-state files** (`fmod_state.cpp`). This part has the save-name mapping
  `replaceSavWithMusicState` and the writer `SaveMusicState`, modelled as the exact list of
  `Open`/`Write`/`Close` calls. It also has the reader `RestoreMusicState`, which only opens and
  closes the file, and the two global save/restore hooks.

Modules:

- `Text` (`text.dfy`): prefix and suffix tests, and the `strlen` view of a string (`CString`). It
  also has the backslash rewrite, `std::to_string` (`Decimal`) with the inverse `ParseDecimal`,
  and the splitting of a byte stream at NUL terminators.
- `Extension` (`extension.dfy`): the state record `Player`, the state right after `SDK_OnLoad`
  (`Loaded`), and the transitions.
- `Session` (`session.dfy`): sequences of requests folded over the transitions. It has
  invariants that hold for every sequence, each checked against a reference definition that
  reads only the requests.
- `FmodState` (`fmod_state.dfy`): save names, the writer, the reader and the hooks.

Behaviours of the code worth knowing:

- `LoadFMODBank` compares the raw requested name with the recorded one, not the sanitized bank
  name. So `x` and `x.bank` count as different banks, although both load the same file.
- The writer passes `strlen + 1` bytes for every token. Each tag and each value is therefore
  followed by a NUL byte: the file holds `bank ␀<name>␀\n`, not `bank <name>\n`.
- No parameter lines are written.
- `RestoreMusicState` reads nothing back and changes no state.
- No autosave rotation code exists.
- `getEvent` outcomes are never inspected. The status of `StartFMODEvent` depends only on the
  final `start` call. The status of `StopFMODEvent` depends only on `releaseAllInstances`.

## Model

| member | source | states |
|---|---|---|
| Extension.SanitizeBankName | extension.cpp:165-171 | the result always ends in `.bank`; a name that already ends in `.bank` comes back unchanged, and any other name gets `.bank` appended |
| Extension.SanitizeBankNameIdempotent | extension.cpp:165-171 | sanitizing an already sanitized name changes nothing |
| Extension.GetFMODBankPath | extension.cpp:217-224 | the path has no backslash and ends in `.bank`; its length is base dir + banks sub-path + sanitized name; each character is the joined character with `\` turned into `/` |
| Extension.GetFMODBankPathPlain | extension.cpp:217-224 | without backslashes in the inputs the path is exactly `baseDir + "/sound/fmod/banks/" + SanitizeBankName(name)` |
| Extension.LoadFMODBank | extension.cpp:232-256 | returns 0 exactly when the name equals the recorded one or both loads succeed, and -1 otherwise; only a successful call records the raw name and nothing else changes; an equal name makes no engine call; otherwise the main bank file is loaded first, and only after it succeeds the `name + ".strings"` bank file |
| Extension.LoadFMODBankIdempotent | extension.cpp:233-235 | after a successful load, loading the same name again succeeds with no engine call and no state change, whatever the engine would answer |
| Extension.LoadFMODBankComparesRawNames | extension.cpp:233-240 | `x` and `x.bank` resolve to the same file, yet with `x` recorded a request for `x.bank` loads that file again |
| Extension.LoadEmptyNameAfterLoad | extension.cpp:232-235 | from the freshly loaded state, loading the empty name is a successful no-op with no engine call |
| Extension.StopFMODEvent | extension.cpp:355-369 | issues getEvent on `event:/` + path, then releaseAllInstances, then update; on success it returns 0 and clears the active path whatever path was named; on failure it returns -1 and changes nothing |
| Extension.StopThenStartCreatesInstance | extension.cpp:263-369 | after a successful stop no event is active, so the next start of any event, the stopped one included, creates a new instance and its instance flag is the engine's answer |
| Extension.SeekCalls | extension.cpp:269-271 | applying a buffered position stops the instance immediately, updates the engine, then seeks to that position: exactly one seek and no start; the same sequence appears at extension.cpp:291-293 |
| Extension.StartFMODEvent | extension.cpp:263-310 | fails (-1) exactly when the event is new and the start fails; the buffer is 0 afterwards whatever happened; restarting the active event changes nothing else and makes no call when nothing is buffered; a new event gets the instance outcome, and records its path only on success; a failed start leaves the previous path if its stop failed and no path otherwise, never the requested non-empty path; the only seek is to the buffered position, and only when it is non-zero |
| Extension.StartFMODEventCallOrder | extension.cpp:263-298 | restarting the active event makes exactly the seek sequence then `start` and `update` when a position is buffered, and no call otherwise; a new event first makes the three calls of stopping the active event, if there is one, then `getEvent` on `event:/` + path and `createInstance`, then the seek sequence only when a position is buffered, then `start` and `update`, and nothing else |
| Extension.ActiveStartCalls | extension.cpp:264-275 | a start of the active event makes the stop, update, seek, start, update sequence when a position is buffered, and no engine call otherwise |
| Extension.NewStartCalls | extension.cpp:276-298 | a start of a new event makes the previous event's stop calls, which contain no seek and no start, followed by the lookup, create, optional seek and start calls |
| Extension.BufferedPositionAppliedOnce | extension.cpp:268-295 | a non-zero buffered position is applied by exactly one seek in the next start, whatever event it names, and no following start seeks again |
| Extension.FirstStartSeeksNothing | extension.cpp:126-131 | after `SDK_OnLoad` zeroes the buffer, the first event start applies no position |
| Extension.GetCurrentFMODTimelinePosition | extension.cpp:316-330 | -1 when there is no event instance or the engine query fails, the engine's value otherwise |
| Extension.PositionAfterStart | extension.cpp:263-330 | after a new event's start, the position query reaches the engine exactly when `createInstance` left an instance, whether or not the start succeeded; otherwise it answers -1 |
| Extension.PositionAfterStop | extension.cpp:316-369 | a stop never clears the instance handle, so for the same engine answer the position query gives the same result after the stop as before |
| Extension.SetCurrentFMODTimelinePosition | extension.cpp:335-348 | only the buffered position changes, to the given value, and no engine call is made |
| Extension.SetFMODPausedState | extension.cpp:414-436 | 0 exactly when the master bus is found and `setPaused` succeeds; only then does the known pause state follow the request; the master bus `bus:/` is always looked up first, and a missing bus ends the call there; a found bus is then paused or unpaused and the engine updated, in that order; a settings sync happens exactly on a successful unpause and is the last call; 1, 3 or 4 calls in all |
| Session.RunPendingPosition | extension.cpp:263-348 | after any sequence of requests, the buffered position is the last buffered value if no event start came after it, 0 if one did, and the initial value otherwise |
| Session.PendingOnlyAfterBuffering | extension.cpp:290-295 | after an event start with no later buffering request, nothing is pending |
| Session.LoadedBankWasRequested | extension.cpp:232-256 | after any sequence of requests, the recorded bank is the initial one or the raw name of a request whose two bank loads both succeeded |
| Session.RunLoadedBank | extension.cpp:232-256 | after any sequence of requests, the recorded bank is exactly the name of the last request whose bank and strings bank both loaded, or the initial bank when there was none |
| Session.ActiveEventWasStarted | extension.cpp:278-307 | after any sequence of requests, the active event is the initial one, none, or the path of a start the engine accepted |
| Session.RunKnownPausedState | extension.cpp:414-436 | after any sequence of requests, the known pause state is the one of the last pause request the engine accepted, or the initial one |
| FmodState.StripSavePrefix | fmod_state.cpp:96-102 | a name starting with `save\` or `save/` loses exactly those five characters; any other name is kept whole; either way the rest is a suffix of the name |
| FmodState.ReplaceSavWithMusicState | fmod_state.cpp:83-122 | the music-state name of a name whose stripped form ends in `.sav` ends in `.musicstate.sav`; the full mapping is given by `OtherNameKept`, `PlainSaveName`, `SlashSaveName`, `BackslashSaveName` and `MappedTwice` |
| FmodState.ReplaceSavWithMusicStateKeepsSav | fmod_state.cpp:104-119 | a stripped name that ends in `.sav` grows by the 11 characters of `.musicstate` and any other stripped name keeps its length; the result ends in `.sav` exactly when the stripped name did |
| FmodState.OtherNameKept | fmod_state.cpp:104-111 | a name whose stripped form does not end in `.sav` maps to the stripped form itself |
| FmodState.PlainSaveName | fmod_state.cpp:98-119 | an unprefixed `<stem>.sav` maps to `<stem>.musicstate.sav` |
| FmodState.SlashSaveName | fmod_state.cpp:98-119 | for every stem, `save/<stem>.sav` maps to `<stem>.musicstate.sav` |
| FmodState.BackslashSaveName | fmod_state.cpp:98-119 | for every stem, `save\<stem>.sav` maps to `<stem>.musicstate.sav` |
| FmodState.DoubledPrefixName | fmod_state.cpp:98-102 | only one prefix is stripped: `save/save/<stem>.sav` maps to `save/<stem>.musicstate.sav` |
| FmodState.ReplaceSavWithMusicStateNotIdempotent | fmod_state.cpp:106-119 | applied to its own output on a save name, the mapping stacks a second `.musicstate` and so differs from the first result |
| FmodState.MappedTwice | fmod_state.cpp:96-119 | a save name maps to `<stem>.musicstate.sav`, and mapping that again strips a prefix from the stem and adds a second `.musicstate` |
| FmodState.Token | fmod_state.cpp:27-42 | a `Write(s, strlen(s) + 1)` emits the characters before the first NUL and then exactly one NUL; a NUL-free string is written whole |
| FmodState.RecordWrites | fmod_state.cpp:26-44 | a record is written in 6 `Write` calls, or 9 when the position is not -1 |
| FmodState.RecordWritesChunks | fmod_state.cpp:26-44 | the chunks in order: `bank ` with its NUL, the bank name as a C string with its NUL, a newline; the same for `event ` and the event path; and, only for a position other than -1, `timestamp ` with its NUL, the decimal position with its NUL and a newline |
| FmodState.RecordWritesText | fmod_state.cpp:26-44 | the chunks of the individual `Write` calls (tag with NUL, value's C string with NUL, newline, per line), laid end to end, give the record text |
| FmodState.RecordTextFields | fmod_state.cpp:26-44 | cut at its NULs, the record gives `bank `, the bank name, `\nevent `, the event path, then `\ntimestamp ` and the decimal position when there is one, and last `\n` |
| FmodState.RecordTextInjective | fmod_state.cpp:26-44 | two records are the same text exactly when their bank names and event paths agree as C strings and their positions agree |
| FmodState.SaveMusicState | fmod_state.cpp:10-49 | opens `save/` + name for writing; if that fails it makes no other call; otherwise it makes 6 writes, or 9 when the position query gives something other than -1, then closes; the bytes written are the record text of the current bank, event and queried position |
| FmodState.SavedRecordDetermines | fmod_state.cpp:26-44 | two successful saves write the same bytes exactly when the bank names and event paths agree as C strings and they have the same timestamp line or both none |
| FmodState.RestoreMusicState | fmod_state.cpp:54-78 | opens `save/` + name for reading, closes it again if it opened, writes nothing and leaves the playback state unchanged |
| FmodState.SaveGlobalState | fmod_state.cpp:132-138 | the save hook writes to `save/` + the music-state name of the engine's save file; the bytes are the record text |
| FmodState.RestoreGlobalState | fmod_state.cpp:140-146 | the restore hook opens `save/` + the music-state name of the last loaded file and changes no state |
| FmodState.SaveGlobalStatePath | fmod_state.cpp:132-136 | the engine save `save/<stem>.sav` is saved to the file `save/<stem>.musicstate.sav`, next to it |
| FmodState.RestoreLeavesSaveUnchanged | fmod_state.cpp:63-77 | firing the restore hook any number of times leaves the state, and so the next save, unchanged |
| Text.CString | fmod_state.cpp:27-34 | what `strlen` counts: the longest NUL-free prefix; the whole string when it has no NUL |
| Text.Decimal | fmod_state.cpp:39-42 | the `std::to_string` rendering is non-empty, has no NUL, is an optional `-` followed by digits, starts with `-` exactly for negative numbers, and has no leading zero, after the sign or without one, unless it is `0` itself |
| Text.DecimalRoundTrip | fmod_state.cpp:39-42 | the rendering is a well-formed decimal that parses back to the number |

## Left out

- Engine lifecycle: `StartFMODEngine` and `StopFMODEngine` (create, initialize, release) are foreign library calls. `SDK_OnLoad` is modelled only by its effect on the state (`Loaded`).
- `SetFMODGlobalParameter` and `SetFMODVolume` only pass a float through to the engine and keep no state. Floating point is not modelled.
- `GetAllFMODGlobalParameters` and its fixed 128-entry buffer are left out because the writer never calls it.
- `SyncFMODSettings` is not defined in the modelled files. It appears only as a `SyncSettings` entry in the call list.
- The SourceMod native wrappers, the native table, the MetaMod load/unload hooks and the hook registration are host plumbing.
- The bank, strings-bank and event-description handles are not part of the state. `createdFMODStudioEventInstance` is modelled only as whether it is non-null. Whether `createInstance` leaves a handle is an engine outcome.
- File contents are modelled as characters, one character per byte. Text encoding is not modelled.
- Names that come from the engine as C strings are modelled by their characters. Names kept in `std::string` go through `CString` wherever the code applies `strlen`.
- Logging, raw `new char[]` allocation and the resulting leaks, and the `char*`/`std::string` mismatch in the writer are not modelled.
- A decoder for the record, config-file reading and autosave rotation are not modelled, because the code has none.
- SaveMusicState: its contract gives the bytes written and the number of `Write` calls, not the boundary of each call's chunk. The chunk list is `RecordWrites`, whose chunks `RecordWritesChunks` gives one by one, and `RecordWritesText` links it to the bytes.

=== FILE: extension.dfy ===
/**
 * The playback bookkeeping of the AdaptiveMusic extension: the bank it has
 * loaded, the event it has started, the buffered timeline position waiting
 * for the next event start, and the last pause state the engine accepted.
 *
 * The FMOD Studio engine is opaque. Every engine call whose outcome the code
 * inspects becomes a parameter of the transition (a success flag, or the
 * value a query returned), and every transition reports the engine calls it
 * issues, in order, so that "no engine call" and "the position is applied
 * once" are statements about that list.
 */
module Extension {
  import opened Text

  // ---------------------------------------------------------------------
  // State
  // ---------------------------------------------------------------------

  /**
   * The fields of `AdaptiveMusicExt` the transitions read and write.
   * `hasEventInstance` stands for `createdFMODStudioEventInstance != nullptr`,
   * the only thing the code ever asks of that pointer on its own.
   */
  datatype Player = Player(
    loadedBankName: string,
    startedEventPath: string,
    restoredTimelinePosition: int32,
    knownPausedState: bool,
    hasEventInstance: bool)

  /**
   * The state right after `SDK_OnLoad`: the strings of the global extension
   * object start empty, its pointer and flag zero-initialised, and the
   * buffered position is set to 0 explicitly.
   */
  const Loaded: Player := Player("", "", 0, false, false)

  /** The engine calls a transition issues, in the order it issues them. */
  datatype EngineCall =
    | LoadBankFile(path: string)
    | GetEvent(path: string)
    | CreateInstance
    | ReleaseAllInstances
    | StopImmediate
    | SetTimelinePosition(position: int32)
    | StartInstance
    | Update
    | GetBus(path: string)
    | SetBusPaused(paused: bool)
    | SyncSettings

  /** What a transition returns to its caller, the state it leaves, and the calls it made. */
  datatype Step = Step(status: int, next: Player, calls: seq<EngineCall>)

  const Success: int := 0
  const Failure: int := -1

  const BankExtension := ".bank"
  const BanksSubPath := "/sound/fmod/banks/"
  const StringsSuffix := ".strings"
  const EventPathPrefix := "event:/"
  const MasterBusPath := "bus:/"

  /** The timeline positions the calls seek to, in order. */
  function Seeks(calls: seq<EngineCall>): (r: seq<int32>)
    ensures |r| <= |calls|
    ensures (forall i :: 0 <= i < |calls| ==> !calls[i].SetTimelinePosition?) ==> r == []
  {
    if calls == [] then []
    else if calls[0].SetTimelinePosition? then [calls[0].position] + Seeks(calls[1..])
    else Seeks(calls[1..])
  }

  lemma {:induction false} SeeksAppend(a: seq<EngineCall>, b: seq<EngineCall>)
    ensures Seeks(a + b) == Seeks(a) + Seeks(b)
  {
    if a == [] {
      assert a + b == b;
    } else {
      assert (a + b)[1..] == a[1..] + b;
      SeeksAppend(a[1..], b);
    }
  }

  // ---------------------------------------------------------------------
  // Bank names and paths
  // ---------------------------------------------------------------------

  /** The bank file name: `.bank` appended unless the name already ends with it. */
  function SanitizeBankName(bankName: string): (r: string)
    ensures EndsWith(r, BankExtension)
    ensures EndsWith(bankName, BankExtension) ==> r == bankName
    ensures !EndsWith(bankName, BankExtension) ==> r == bankName + BankExtension
  {
    if EndsWith(bankName, BankExtension) then bankName
    else bankName + BankExtension
  }

  /** Sanitizing twice is sanitizing once. */
  lemma SanitizeBankNameIdempotent(bankName: string)
    ensures SanitizeBankName(SanitizeBankName(bankName)) == SanitizeBankName(bankName)
  {
  }

  /**
   * The file a bank is loaded from: the game's base directory, the fixed
   * banks folder and the sanitized name, with every backslash turned into a
   * forward slash.
   */
  function GetFMODBankPath(baseDir: string, bankName: string): (r: string)
    ensures '\\' !in r
    ensures EndsWith(r, BankExtension)
    ensures |r| == |baseDir| + |BanksSubPath| + |SanitizeBankName(bankName)|
    ensures var joined := baseDir + BanksSubPath + SanitizeBankName(bankName);
            forall i :: 0 <= i < |r| ==> r[i] == (if joined[i] == '\\' then '/' else joined[i])
  {
    var name := SanitizeBankName(bankName);
    EndsWithPrepend(baseDir + BanksSubPath, name, BankExtension);
    ForwardSlashesKeepsSuffix(baseDir + BanksSubPath + name, BankExtension);
    ForwardSlashes(baseDir + BanksSubPath + name)
  }

  /** With no backslash anywhere the path is the plain concatenation. */
  lemma GetFMODBankPathPlain(baseDir: string, bankName: string)
    requires '\\' !in baseDir && '\\' !in bankName
    ensures GetFMODBankPath(baseDir, bankName) == baseDir + BanksSubPath + SanitizeBankName(bankName)
  {
    var name := SanitizeBankName(bankName);
    assert '\\' !in name by {
      assert '\\' !in BankExtension;
      assert name == bankName || name == bankName + BankExtension;
    }
    assert '\\' !in BanksSubPath;
    var dir := baseDir + BanksSubPath;
    assert '\\' !in dir;
    assert '\\' !in dir + name;
  }

  // ---------------------------------------------------------------------
  // LoadFMODBank
  // ---------------------------------------------------------------------

  /**
   * Loads a bank and its strings bank unless the requested name is the one
   * already recorded. `mainLoads` and `stringsLoads` are the outcomes of the
   * two `loadBankFile` calls; the second is only issued when the first
   * succeeds. The raw requested name is recorded only when both succeed.
   */
  function LoadFMODBank(st: Player, baseDir: string, bankName: string, mainLoads: bool, stringsLoads: bool): (r: Step)
    ensures r.status == Success || r.status == Failure
    ensures r.status == Success <==> (bankName == st.loadedBankName || (mainLoads && stringsLoads))
    ensures r.next == st.(loadedBankName := if r.status == Success then bankName else st.loadedBankName)
    ensures bankName == st.loadedBankName ==> r.calls == []
    ensures bankName != st.loadedBankName ==>
              && |r.calls| == (if mainLoads then 2 else 1)
              && r.calls[0] == LoadBankFile(GetFMODBankPath(baseDir, bankName))
              && (mainLoads ==> r.calls[1] == LoadBankFile(GetFMODBankPath(baseDir, bankName + StringsSuffix)))
  {
    if st.loadedBankName == bankName then
      Step(Success, st, [])
    else
      var mainCall := LoadBankFile(GetFMODBankPath(baseDir, bankName));
      var stringsCall := LoadBankFile(GetFMODBankPath(baseDir, bankName + StringsSuffix));
      if !mainLoads then
        Step(Failure, st, [mainCall])
      else if !stringsLoads then
        Step(Failure, st, [mainCall, stringsCall])
      else
        Step(Success, st.(loadedBankName := bankName), [mainCall, stringsCall])
  }

  /** Once a bank is recorded, asking for it again is a no-op whatever the engine would do. */
  lemma LoadFMODBankIdempotent(st: Player, baseDir: string, bankName: string, m1: bool, s1: bool, m2: bool, s2: bool)
    requires LoadFMODBank(st, baseDir, bankName, m1, s1).status == Success
    ensures var first := LoadFMODBank(st, baseDir, bankName, m1, s1);
            var second := LoadFMODBank(first.next, baseDir, bankName, m2, s2);
            second.status == Success && second.next == first.next && second.calls == []
  {
  }

  /**
   * The no-op test compares raw names: with `x` recorded, a request for
   * `x.bank` loads the very file `x` was loaded from again.
   */
  lemma LoadFMODBankComparesRawNames(st: Player, baseDir: string, bankName: string, mainLoads: bool, stringsLoads: bool)
    requires st.loadedBankName == bankName && !EndsWith(bankName, BankExtension)
    ensures GetFMODBankPath(baseDir, bankName + BankExtension) == GetFMODBankPath(baseDir, bankName)
    ensures LoadFMODBank(st, baseDir, bankName + BankExtension, mainLoads, stringsLoads).calls[0]
              == LoadBankFile(GetFMODBankPath(baseDir, bankName))
  {
    var full := bankName + BankExtension;
    assert full[|full| - |BankExtension|..] == BankExtension;
    assert full != bankName;
  }

  /** From a fresh load, asking for the empty bank name loads nothing. */
  lemma LoadEmptyNameAfterLoad(baseDir: string, mainLoads: bool, stringsLoads: bool)
    ensures LoadFMODBank(Loaded, baseDir, "", mainLoads, stringsLoads) == Step(Success, Loaded, [])
  {
  }

  // ---------------------------------------------------------------------
  // StopFMODEvent
  // ---------------------------------------------------------------------

  /**
   * Releases every instance of the named event. `released` is the outcome of
   * `releaseAllInstances` (the `getEvent` result is overwritten before it is
   * looked at). On success the active event is cleared whatever was named.
   */
  function StopFMODEvent(st: Player, eventPath: string, released: bool): (r: Step)
    ensures r.status == (if released then Success else Failure)
    ensures r.next == (if released then st.(startedEventPath := "") else st)
    ensures r.calls == [GetEvent(EventPathPrefix + eventPath), ReleaseAllInstances, Update]
    ensures Seeks(r.calls) == [] && StartInstance !in r.calls
  {
    var calls := [GetEvent(EventPathPrefix + eventPath), ReleaseAllInstances, Update];
    if released then Step(Success, st.(startedEventPath := ""), calls)
    else Step(Failure, st, calls)
  }

  // ---------------------------------------------------------------------
  // StartFMODEvent
  // ---------------------------------------------------------------------

  /** The event named is the one already playing. */
  predicate IsActive(st: Player, eventPath: string) {
    st.startedEventPath != "" && eventPath == st.startedEventPath
  }

  /** The calls that apply a buffered position to the current instance before it is (re)started. */
  function SeekCalls(position: int32): (r: seq<EngineCall>)
    ensures Seeks(r) == [position]
    ensures StartInstance !in r
    ensures |r| >= 1 && r[..|r| - 1] == [StopImmediate, Update] && r[|r| - 1] == SetTimelinePosition(position)
  {
    var r := [StopImmediate, Update, SetTimelinePosition(position)];
    assert Seeks(r) == [position] by {
      SeeksAppend([StopImmediate, Update], [SetTimelinePosition(position)]);
    }
    r
  }

  /**
   * Starts an event. If it is already the active one, a non-zero buffered
   * position is applied by stopping, seeking and restarting the instance,
   * and nothing else happens. Otherwise the active event (if any) is stopped
   * first, with outcome `stopsPrevious`; a new instance is created, leaving
   * an instance handle exactly when `instantiates`; a non-zero buffered
   * position is applied and cleared; and the instance is started, with
   * outcome `starts`. Only a successful start records the new path.
   */
  function StartFMODEvent(st: Player, eventPath: string, stopsPrevious: bool, instantiates: bool, starts: bool): (r: Step)
    ensures r.status == Success || r.status == Failure
    ensures r.status == Failure <==> !IsActive(st, eventPath) && !starts
    ensures r.next.restoredTimelinePosition == 0
    ensures r.next.loadedBankName == st.loadedBankName
    ensures r.next.knownPausedState == st.knownPausedState
    ensures IsActive(st, eventPath) ==> r.next == st.(restoredTimelinePosition := 0)
    ensures IsActive(st, eventPath) && st.restoredTimelinePosition == 0 ==> r.calls == []
    ensures !IsActive(st, eventPath) ==> r.next.hasEventInstance == instantiates
    ensures !IsActive(st, eventPath) && starts ==> r.next.startedEventPath == eventPath
    ensures !IsActive(st, eventPath) && !starts ==>
              r.next.startedEventPath == (if st.startedEventPath != "" && !stopsPrevious then st.startedEventPath else "")
    ensures !IsActive(st, eventPath) && !starts && eventPath != "" ==> r.next.startedEventPath != eventPath
    ensures Seeks(r.calls) == (if st.restoredTimelinePosition != 0 then [st.restoredTimelinePosition] else [])
  {
    var position := st.restoredTimelinePosition;
    if IsActive(st, eventPath) then
      if position != 0 then
        Step(Success, st.(restoredTimelinePosition := 0), RestartCalls(position))
      else
        Step(Success, st, [])
    else
      var stop := if st.startedEventPath != "" then StopFMODEvent(st, st.startedEventPath, stopsPrevious)
                  else Step(Success, st, []);
      var calls := NewEventCalls(stop.calls, eventPath, position);
      var instanced := stop.next.(hasEventInstance := instantiates, restoredTimelinePosition := 0);
      if starts then
        Step(Success, instanced.(startedEventPath := eventPath), calls)
      else
        Step(Failure, instanced, calls)
  }

  /**
   * The order of a start's engine calls: every start that calls the engine
   * ends with `start` and `update`, and starts nothing before, so any seek
   * comes first. A new event first stops the active one (the three calls of
   * `StopFMODEvent`), then looks the event up and creates its instance.
   */
  lemma StartFMODEventCallOrder(st: Player, eventPath: string, stopsPrevious: bool, instantiates: bool, starts: bool)
    ensures var calls := StartFMODEvent(st, eventPath, stopsPrevious, instantiates, starts).calls;
            calls != [] ==>
              && |calls| >= 2 && calls[|calls| - 2..] == [StartInstance, Update]
              && StartInstance !in calls[..|calls| - 2]
    ensures var calls := StartFMODEvent(st, eventPath, stopsPrevious, instantiates, starts).calls;
            var k := if st.startedEventPath != "" then 3 else 0;
            !IsActive(st, eventPath) ==>
              && |calls| >= k + 4
              && calls[..k] == (if k == 3 then StopFMODEvent(st, st.startedEventPath, stopsPrevious).calls else [])
              && calls[k] == GetEvent(EventPathPrefix + eventPath)
              && calls[k + 1] == CreateInstance
    ensures var calls := StartFMODEvent(st, eventPath, stopsPrevious, instantiates, starts).calls;
            var position := st.restoredTimelinePosition;
            var seek := if position != 0 then SeekCalls(position) else [];
            var k := if st.startedEventPath != "" then 3 else 0;
            && (IsActive(st, eventPath) ==> calls == (if position != 0 then seek + StartCalls else []))
            && (!IsActive(st, eventPath) ==> |calls| == k + 4 + |seek| && calls[k + 2..k + 2 + |seek|] == seek)
  {
    if IsActive(st, eventPath) {
      ActiveStartCalls(st, eventPath, stopsPrevious, instantiates, starts);
    } else {
      NewStartCalls(st, eventPath, stopsPrevious, instantiates, starts);
    }
  }

  /** Restarting the active event: the restart sequence when a position is buffered, nothing otherwise. */
  lemma ActiveStartCalls(st: Player, eventPath: string, stopsPrevious: bool, instantiates: bool, starts: bool)
    requires IsActive(st, eventPath)
    ensures var position := st.restoredTimelinePosition;
            StartFMODEvent(st, eventPath, stopsPrevious, instantiates, starts).calls
              == if position != 0 then RestartCalls(position) else []
  {
  }

  /** Starting a new event: the previous event's stop calls, if any, then the calls of `NewEventCalls`. */
  lemma NewStartCalls(st: Player, eventPath: string, stopsPrevious: bool, instantiates: bool, starts: bool)
    requires !IsActive(st, eventPath)
    ensures var stopCalls := if st.startedEventPath != "" then StopFMODEvent(st, st.startedEventPath, stopsPrevious).calls else [];
            && Seeks(stopCalls) == [] && StartInstance !in stopCalls
            && StartFMODEvent(st, eventPath, stopsPrevious, instantiates, starts).calls
                 == NewEventCalls(stopCalls, eventPath, st.restoredTimelinePosition)
  {
  }

  /**
   * After a successful stop no event is active, so the next start of any
   * event, even the one just stopped, creates a fresh instance.
   */
  lemma StopThenStartCreatesInstance(
    st: Player, stoppedPath: string, eventPath: string, stopsPrevious: bool, instantiates: bool, starts: bool)
    ensures var stopped := StopFMODEvent(st, stoppedPath, true).next;
            var started := StartFMODEvent(stopped, eventPath, stopsPrevious, instantiates, starts);
            && !IsActive(stopped, eventPath)
            && CreateInstance in started.calls
            && started.next.hasEventInstance == instantiates
  {
    var stopped := StopFMODEvent(st, stoppedPath, true).next;
    StartFMODEventCallOrder(stopped, eventPath, stopsPrevious, instantiates, starts);
    assert StartFMODEvent(stopped, eventPath, stopsPrevious, instantiates, starts).calls[1] == CreateInstance;
  }

  /** The calls that end every start: start the instance, then update the engine. */
  const StartCalls: seq<EngineCall> := [StartInstance, Update]

  /** Restarting the active event at a buffered position: stop, seek, then start. */
  function RestartCalls(position: int32): (r: seq<EngineCall>)
    ensures Seeks(r) == [position]
    ensures |r| >= 2 && r[|r| - 2..] == StartCalls && StartInstance !in r[..|r| - 2]
  {
    var r := SeekCalls(position) + StartCalls;
    SeeksAppend(SeekCalls(position), StartCalls);
    assert r[..|r| - 2] == SeekCalls(position);
    r
  }

  /**
   * Starting a new event: the calls that stopped the previous one, then the
   * event lookup and the instance creation, then the seek to a non-zero
   * buffered position, and last the start.
   */
  function NewEventCalls(stopCalls: seq<EngineCall>, eventPath: string, position: int32): (r: seq<EngineCall>)
    requires Seeks(stopCalls) == [] && StartInstance !in stopCalls
    ensures |r| >= |stopCalls| + 4 && r[..|stopCalls|] == stopCalls
    ensures r[|stopCalls|] == GetEvent(EventPathPrefix + eventPath) && r[|stopCalls| + 1] == CreateInstance
    ensures r[|r| - 2..] == StartCalls && StartInstance !in r[..|r| - 2]
    ensures Seeks(r) == (if position != 0 then [position] else [])
    ensures var seek := if position != 0 then SeekCalls(position) else [];
            |r| == |stopCalls| + 4 + |seek| && r[|stopCalls| + 2..|stopCalls| + 2 + |seek|] == seek
  {
    var lookup := [GetEvent(EventPathPrefix + eventPath), CreateInstance];
    var seek := if position != 0 then SeekCalls(position) else [];
    var prefix := stopCalls + lookup + seek;
    var r := prefix + StartCalls;
    SeeksAppend(stopCalls, lookup);
    SeeksAppend(stopCalls + lookup, seek);
    SeeksAppend(prefix, StartCalls);
    assert r[..|r| - 2] == prefix;
    assert r[..|stopCalls|] == stopCalls;
    assert r[|stopCalls| + 2..|stopCalls| + 2 + |seek|] == seek;
    r
  }

  // ---------------------------------------------------------------------
  // Timeline position
  // ---------------------------------------------------------------------

  /** The answer of the engine's `getTimelinePosition` query. */
  datatype TimelineQuery = QueryFailed | Position(value: int32)

  /**
   * The position of the current instance: -1 when there is no instance or
   * the engine reports an error, the engine's answer otherwise.
   */
  function GetCurrentFMODTimelinePosition(st: Player, query: TimelineQuery): (r: int32)
    ensures !st.hasEventInstance ==> r == -1
    ensures query.QueryFailed? ==> r == -1
    ensures st.hasEventInstance && query.Position? ==> r == query.value
  {
    if !st.hasEventInstance then -1
    else match query
      case QueryFailed => -1
      case Position(t) => t
  }

  /**
   * After a new event's start the position query reaches the engine exactly
   * when `createInstance` left an instance, whether or not the start itself
   * succeeded.
   */
  lemma PositionAfterStart(st: Player, eventPath: string, stopsPrevious: bool, instantiates: bool, starts: bool, query: TimelineQuery)
    requires !IsActive(st, eventPath)
    ensures var next := StartFMODEvent(st, eventPath, stopsPrevious, instantiates, starts).next;
            GetCurrentFMODTimelinePosition(next, query) == (if instantiates && query.Position? then query.value else -1)
  {
  }

  /**
   * Stopping releases the instances but keeps the instance handle, so the
   * position query afterwards is answered exactly as before.
   */
  lemma PositionAfterStop(st: Player, eventPath: string, released: bool, query: TimelineQuery)
    ensures GetCurrentFMODTimelinePosition(StopFMODEvent(st, eventPath, released).next, query)
              == GetCurrentFMODTimelinePosition(st, query)
  {
  }

  /** Only buffers the position for the next event start; no engine call is made. */
  function SetCurrentFMODTimelinePosition(st: Player, timelinePosition: int32): (r: Player)
    ensures r.restoredTimelinePosition == timelinePosition
    ensures r.(restoredTimelinePosition := st.restoredTimelinePosition) == st
  {
    st.(restoredTimelinePosition := timelinePosition)
  }

  /**
   * A buffered position is applied by the next start, whichever event it
   * names and whatever the engine answers, and by no start after that.
   */
  lemma BufferedPositionAppliedOnce(
    st: Player, position: int32,
    firstPath: string, stop1: bool, inst1: bool, start1: bool,
    secondPath: string, stop2: bool, inst2: bool, start2: bool)
    requires position != 0
    ensures var first := StartFMODEvent(SetCurrentFMODTimelinePosition(st, position), firstPath, stop1, inst1, start1);
            var second := StartFMODEvent(first.next, secondPath, stop2, inst2, start2);
            Seeks(first.calls) == [position] && Seeks(second.calls) == []
  {
  }

  /** Right after loading, no position is buffered, so the first start seeks nowhere. */
  lemma FirstStartSeeksNothing(eventPath: string, stopsPrevious: bool, instantiates: bool, starts: bool)
    ensures Seeks(StartFMODEvent(Loaded, eventPath, stopsPrevious, instantiates, starts).calls) == []
  {
  }

  // ---------------------------------------------------------------------
  // Pause state
  // ---------------------------------------------------------------------

  /**
   * Pauses or unpauses the master bus. `busFound` is the outcome of the bus
   * lookup and `pauseSet` that of `setPaused`. The known pause state follows
   * only a successful call, and a successful unpause asks for a settings
   * sync.
   */
  function SetFMODPausedState(st: Player, paused: bool, busFound: bool, pauseSet: bool): (r: Step)
    ensures r.status == Success || r.status == Failure
    ensures r.status == Success <==> busFound && pauseSet
    ensures r.next == st.(knownPausedState := if r.status == Success then paused else st.knownPausedState)
    ensures |r.calls| >= 1 && r.calls[0] == GetBus(MasterBusPath)
    ensures SyncSettings in r.calls <==> r.status == Success && !paused
    ensures SetBusPaused(paused) in r.calls <==> busFound
    ensures busFound ==> |r.calls| >= 3 && r.calls[1..3] == [SetBusPaused(paused), Update]
    ensures SyncSettings in r.calls ==> r.calls[|r.calls| - 1] == SyncSettings
    ensures |r.calls| == (if !busFound then 1 else if r.status == Success && !paused then 4 else 3)
  {
    var lookup := [GetBus(MasterBusPath)];
    if !busFound then
      Step(Failure, st, lookup)
    else
      var pauseCalls := lookup + [SetBusPaused(paused), Update];
      if !pauseSet then
        Step(Failure, st, pauseCalls)
      else
        Step(Success, st.(knownPausedState := paused), pauseCalls + (if !paused then [SyncSettings] else []))
  }
}

=== FILE: fmod_state.dfy ===
/**
 * Persistence of the music state next to a game save: the mapping from the
 * engine's save-file name to the music-state file name, the exact sequence
 * of file-system calls the writer makes, the reader (which so far only opens
 * and closes the file), and the two save/restore hooks that tie them to the
 * engine's save names.
 *
 * The file system is opaque: whether `Open` hands back a handle is a
 * parameter, and each function returns the file calls it makes, in order.
 */
module FmodState {
  import opened Text
  import opened Extension

  const SaveDirPrefix := "save/"
  const BackslashSavePrefix := "save\\"
  const SavSuffix := ".sav"
  const MusicStateInfix := ".musicstate"
  const MusicStateSuffix := MusicStateInfix + SavSuffix

  // ---------------------------------------------------------------------
  // replaceSavWithMusicState
  // ---------------------------------------------------------------------

  /** Removes one leading `save\` or, failing that, one leading `save/`. */
  function StripSavePrefix(name: string): (r: string)
    ensures EndsWith(name, r) && |name| - 5 <= |r|
    ensures StartsWith(name, BackslashSavePrefix) || StartsWith(name, SaveDirPrefix) ==> name == name[..5] + r
    ensures !StartsWith(name, BackslashSavePrefix) && !StartsWith(name, SaveDirPrefix) ==> r == name
  {
    if StartsWith(name, BackslashSavePrefix) then name[|BackslashSavePrefix|..]
    else if StartsWith(name, SaveDirPrefix) then name[|SaveDirPrefix|..]
    else name
  }

  /** A music-state name still ends in `.sav`; what precedes that is the name plus `.musicstate`. */
  lemma MusicStateNameEndsInSav(x: string)
    ensures EndsWith(x + MusicStateSuffix, SavSuffix)
    ensures (x + MusicStateSuffix)[..|x + MusicStateSuffix| - |SavSuffix|] == x + MusicStateInfix
  {
    Assoc(x, MusicStateInfix, SavSuffix);
    var y := x + MusicStateInfix + SavSuffix;
    assert y[|y| - |SavSuffix|..] == SavSuffix;
    assert y[..|y| - |SavSuffix|] == x + MusicStateInfix;
  }

  /**
   * The music-state file name for an engine save name: the save prefix is
   * stripped, then a trailing `.sav` becomes `.musicstate.sav`; a stripped
   * name without `.sav` is returned as it is.
   */
  function ReplaceSavWithMusicState(original: string): (r: string)
    ensures EndsWith(StripSavePrefix(original), SavSuffix) ==> EndsWith(r, MusicStateSuffix)
  {
    var data := StripSavePrefix(original);
    if !EndsWith(data, SavSuffix) then data
    else data[..|data| - |SavSuffix|] + MusicStateSuffix
  }

  /**
   * The mapping lengthens a stripped save name by the 11 characters of
   * `.musicstate` and keeps every other stripped name; the result ends in
   * `.sav` exactly when the stripped name did.
   */
  lemma ReplaceSavWithMusicStateKeepsSav(original: string)
    ensures var data := StripSavePrefix(original);
            var r := ReplaceSavWithMusicState(original);
            && |r| == |data| + (if EndsWith(data, SavSuffix) then |MusicStateInfix| else 0)
            && (EndsWith(r, SavSuffix) <==> EndsWith(data, SavSuffix))
  {
    var data := StripSavePrefix(original);
    if EndsWith(data, SavSuffix) {
      MusicStateNameEndsInSav(data[..|data| - |SavSuffix|]);
    }
  }

  /** A stripped name that does not end in `.sav` comes back exactly as it is. */
  lemma OtherNameKept(original: string)
    requires !EndsWith(StripSavePrefix(original), SavSuffix)
    ensures ReplaceSavWithMusicState(original) == StripSavePrefix(original)
  {
  }

  /** A name with neither prefix, `<stem>.sav`, maps to `<stem>.musicstate.sav`. */
  lemma PlainSaveName(stem: string)
    requires !StartsWith(stem, SaveDirPrefix) && !StartsWith(stem, BackslashSavePrefix)
    ensures ReplaceSavWithMusicState(stem + SavSuffix) == stem + MusicStateSuffix
  {
    StripSavePrefixDotTail(stem, SavSuffix);
    var data := stem + SavSuffix;
    assert StripSavePrefix(data) == data;
    assert data[|data| - |SavSuffix|..] == SavSuffix;
    assert data[..|data| - |SavSuffix|] == stem;
  }

  /** A suffix that starts with `.` cannot complete a save prefix, so stripping passes it through. */
  lemma StripSavePrefixDotTail(stem: string, tail: string)
    requires |tail| >= 1 && tail[0] == '.'
    ensures StripSavePrefix(stem + tail) == StripSavePrefix(stem) + tail
  {
    var s := stem + tail;
    if |stem| >= 5 {
      assert s[..5] == stem[..5];
      if StartsWith(stem, BackslashSavePrefix) || StartsWith(stem, SaveDirPrefix) {
        assert s[5..] == stem[5..] + tail;
      }
    } else if |s| >= 5 {
      assert s[..5][|stem|] == '.';
      assert !StartsWith(s, BackslashSavePrefix) && !StartsWith(s, SaveDirPrefix);
    }
  }

  /**
   * Applying the mapping to its own output on a save name stacks the
   * suffix, so the mapping is not idempotent.
   */
  lemma ReplaceSavWithMusicStateNotIdempotent(original: string)
    requires EndsWith(StripSavePrefix(original), SavSuffix)
    ensures var data := StripSavePrefix(original);
            var stem := data[..|data| - |SavSuffix|];
            ReplaceSavWithMusicState(ReplaceSavWithMusicState(original))
              == StripSavePrefix(stem) + MusicStateInfix + MusicStateSuffix
    ensures ReplaceSavWithMusicState(ReplaceSavWithMusicState(original)) != ReplaceSavWithMusicState(original)
  {
    var data := StripSavePrefix(original);
    var stem := data[..|data| - |SavSuffix|];
    MappedTwice(original, stem);
    assert |ReplaceSavWithMusicState(original)| == |stem| + |MusicStateSuffix|;
    assert |StripSavePrefix(stem)| >= |stem| - 5;
  }

  /** The two steps of mapping a save name twice: once to `<stem>.musicstate.sav`, then once more. */
  lemma MappedTwice(original: string, stem: string)
    requires EndsWith(StripSavePrefix(original), SavSuffix)
    requires stem == StripSavePrefix(original)[..|StripSavePrefix(original)| - |SavSuffix|]
    ensures ReplaceSavWithMusicState(original) == stem + MusicStateSuffix
    ensures ReplaceSavWithMusicState(stem + MusicStateSuffix)
              == StripSavePrefix(stem) + MusicStateInfix + MusicStateSuffix
  {
    var data2 := StripSavePrefix(stem) + MusicStateSuffix;
    StripSavePrefixDotTail(stem, MusicStateSuffix);
    assert StripSavePrefix(stem + MusicStateSuffix) == data2;
    MusicStateNameEndsInSav(StripSavePrefix(stem));
  }

  /** A name `save/<stem>.sav` maps to `<stem>.musicstate.sav`, whatever the stem. */
  lemma SlashSaveName(stem: string)
    ensures ReplaceSavWithMusicState(SaveDirPrefix + stem + SavSuffix) == stem + MusicStateSuffix
  {
    var name := SaveDirPrefix + stem + SavSuffix;
    assert name[..5] == SaveDirPrefix;
    assert name[4] != BackslashSavePrefix[4];
    var data := StripSavePrefix(name);
    assert data == stem + SavSuffix;
    assert data[|data| - |SavSuffix|..] == SavSuffix;
    assert data[..|data| - |SavSuffix|] == stem;
  }

  /** A name `save\<stem>.sav` maps to `<stem>.musicstate.sav`, whatever the stem. */
  lemma BackslashSaveName(stem: string)
    ensures ReplaceSavWithMusicState(BackslashSavePrefix + stem + SavSuffix) == stem + MusicStateSuffix
  {
    var name := BackslashSavePrefix + stem + SavSuffix;
    assert name[..5] == BackslashSavePrefix;
    var data := StripSavePrefix(name);
    assert data == stem + SavSuffix;
    assert data[|data| - |SavSuffix|..] == SavSuffix;
    assert data[..|data| - |SavSuffix|] == stem;
  }

  /**
   * Only one prefix is stripped: `save/save/<stem>.sav` keeps its second
   * `save/` and maps to `save/<stem>.musicstate.sav`.
   */
  lemma DoubledPrefixName(stem: string)
    ensures ReplaceSavWithMusicState(SaveDirPrefix + SaveDirPrefix + stem + SavSuffix)
              == SaveDirPrefix + stem + MusicStateSuffix
  {
    SlashSaveName(SaveDirPrefix + stem);
    Assoc(SaveDirPrefix, SaveDirPrefix, stem);
  }

  // ---------------------------------------------------------------------
  // File calls
  // ---------------------------------------------------------------------

  /** The file-system calls the reader and writer make. */
  datatype FileCall = Open(path: string, mode: string) | Write(data: string) | Close

  /** The bytes the calls put into the file, in order. */
  function Written(calls: seq<FileCall>): string {
    if calls == [] then []
    else (if calls[0].Write? then calls[0].data else []) + Written(calls[1..])
  }

  lemma {:induction false} WrittenAppend(a: seq<FileCall>, b: seq<FileCall>)
    ensures Written(a + b) == Written(a) + Written(b)
  {
    if a == [] {
      assert a + b == b;
    } else {
      assert (a + b)[1..] == a[1..] + b;
      WrittenAppend(a[1..], b);
    }
  }

  /** One `Write` call per chunk. */
  function WriteCalls(chunks: seq<string>): (r: seq<FileCall>)
    ensures |r| == |chunks|
    ensures forall i :: 0 <= i < |r| ==> r[i] == Write(chunks[i])
    ensures Written(r) == Concat(chunks)
  {
    if chunks == [] then []
    else [Write(chunks[0])] + WriteCalls(chunks[1..])
  }

  /** The bytes `Write(s, strlen(s) + 1)` emits: the C string and its terminator. */
  function Token(s: string): (r: string)
    ensures |r| >= 1 && r[|r| - 1] == Nul && Nul !in r[..|r| - 1]
    ensures r[..|r| - 1] == CString(s)
    ensures Nul !in s ==> r == s + [Nul]
  {
    CString(s) + [Nul]
  }

  const BankTag: NulFree := "bank "
  const EventTag: NulFree := "event "
  const TimestampTag: NulFree := "timestamp "
  const Newline: NulFree := "\n"

  /** The three writes of one record line: the tag token, the value token and a newline. */
  function LineWrites(tag: string, value: string): seq<string> {
    [Token(tag), Token(value), Newline]
  }

  /**
   * The writes of one music-state record, one chunk per `Write` call: the
   * bank line, the event line and, when a position was obtained (it is not
   * -1), the timestamp line. No parameter line is ever written.
   */
  function RecordWrites(bankName: string, eventPath: string, position: int32): (r: seq<string>)
    ensures |r| == (if position != -1 then 9 else 6)
  {
    LineWrites(BankTag, bankName) + LineWrites(EventTag, eventPath)
      + (if position != -1 then LineWrites(TimestampTag, Decimal(position)) else [])
  }

  /**
   * Chunk by chunk, the writes of a record: each tag with its terminator,
   * each value as the C string `Write(s, strlen(s) + 1)` emits, a newline
   * after each line, and the timestamp line only for a position other than -1.
   */
  lemma RecordWritesChunks(bankName: string, eventPath: string, position: int32)
    ensures var r := RecordWrites(bankName, eventPath, position);
            && r[0] == BankTag + [Nul] && r[1] == Token(bankName) && r[2] == Newline
            && r[3] == EventTag + [Nul] && r[4] == Token(eventPath) && r[5] == Newline
            && (position != -1 ==>
                  r[6] == TimestampTag + [Nul] && r[7] == Decimal(position) + [Nul] && r[8] == Newline)
  {
    var bank := LineWrites(BankTag, bankName);
    var event := LineWrites(EventTag, eventPath);
    LineWritesOfTag(BankTag, bankName);
    LineWritesOfTag(EventTag, eventPath);
    if position != -1 {
      var timestamp := LineWrites(TimestampTag, Decimal(position));
      LineWritesOfTag(TimestampTag, Decimal(position));
      assert Token(Decimal(position)) == Decimal(position) + [Nul];
      ChunkAt(bank, event, timestamp);
    } else {
      ChunkAt(bank, event, []);
    }
  }

  /** A line whose tag has no NUL writes the tag and its terminator as the first chunk. */
  lemma LineWritesOfTag(tag: NulFree, value: string)
    ensures LineWrites(tag, value) == [tag + [Nul], Token(value), Newline]
  {
  }

  /** Where the chunks of three consecutive lines sit in the whole. */
  lemma ChunkAt<T>(a: seq<T>, b: seq<T>, c: seq<T>)
    requires |a| == 3 && |b| == 3
    ensures var r := a + b + c;
            && r[0] == a[0] && r[1] == a[1] && r[2] == a[2]
            && r[3] == b[0] && r[4] == b[1] && r[5] == b[2]
            && (|c| == 3 ==> r[6] == c[0] && r[7] == c[1] && r[8] == c[2])
  {
  }

  /** One record line as bytes: tag, NUL, value as a C string, NUL, newline. */
  function LineText(tag: string, value: string): string {
    tag + [Nul] + CString(value) + [Nul] + Newline
  }

  /**
   * The record as one byte string, laid out line by line independently of
   * the individual writes.
   */
  function RecordText(bankName: string, eventPath: string, position: int32): string {
    LineText(BankTag, bankName) + LineText(EventTag, eventPath)
      + (if position != -1 then LineText(TimestampTag, Decimal(position)) else [])
  }

  lemma LineWritesText(tag: string, value: string)
    requires Nul !in tag
    ensures Concat(LineWrites(tag, value)) == LineText(tag, value)
  {
    var w := LineWrites(tag, value);
    assert w == [w[0]] + [w[1]] + [w[2]];
    ConcatAppend([w[0]] + [w[1]], [w[2]]);
    ConcatAppend([w[0]], [w[1]]);
    assert Concat(w) == w[0] + w[1] + w[2];
    assert w[0] == tag + [Nul] && w[1] == CString(value) + [Nul];
    Assoc(tag + [Nul], CString(value), [Nul]);
  }

  /** The writes, laid end to end, are exactly the record text. */
  lemma RecordWritesText(bankName: string, eventPath: string, position: int32)
    ensures Concat(RecordWrites(bankName, eventPath, position)) == RecordText(bankName, eventPath, position)
  {
    var bank := LineWrites(BankTag, bankName);
    var event := LineWrites(EventTag, eventPath);
    var time := if position != -1 then LineWrites(TimestampTag, Decimal(position)) else [];
    var timeText := if position != -1 then LineText(TimestampTag, Decimal(position)) else [];
    assert Concat(time) == timeText by {
      if position != -1 {
        LineWritesText(TimestampTag, Decimal(position));
      }
    }
    LineWritesText(BankTag, bankName);
    LineWritesText(EventTag, eventPath);
    ConcatAppend(bank, event);
    ConcatAppend(bank + event, time);
  }

  /** A line and what follows it, regrouped at the line's two NULs. */
  lemma LineTokens(tag: string, value: string, rest: string)
    ensures LineText(tag, value) + rest == tag + [Nul] + (CString(value) + [Nul] + (Newline + rest))
  {
    var c := CString(value);
    Assoc(tag + [Nul] + c + [Nul], Newline, rest);
    Assoc(tag + [Nul] + c, [Nul], Newline + rest);
    Assoc(tag + [Nul], c, [Nul] + (Newline + rest));
    Assoc(c, [Nul], Newline + rest);
  }

  /** A first line, cut at its NULs, followed by whatever the rest cuts into. */
  lemma FirstLineFields(tag: string, value: string, rest: string)
    requires Nul !in tag
    ensures SplitAtNul(LineText(tag, value) + rest) == [tag, CString(value)] + SplitAtNul(Newline + rest)
  {
    var tail := CString(value) + [Nul] + (Newline + rest);
    LineTokens(tag, value, rest);
    SplitAtNulToken(tag, tail);
    SplitAtNulToken(CString(value), Newline + rest);
  }

  /**
   * A line behind a NUL-free lead comes back as two pieces, lead and tag
   * together, then the value; what follows starts at the line's newline.
   */
  lemma SplitAtNulLine(lead: string, tag: string, value: string, rest: string)
    requires Nul !in lead && Nul !in tag
    ensures SplitAtNul(lead + LineText(tag, value) + rest) == [lead + tag, CString(value)] + SplitAtNul(Newline + rest)
  {
    var tail := CString(value) + [Nul] + (Newline + rest);
    LineTokens(tag, value, rest);
    Assoc(lead, LineText(tag, value), rest);
    Assoc(lead, tag + [Nul], tail);
    Assoc(lead, tag, [Nul]);
    SplitAtNulToken(lead + tag, tail);
    SplitAtNulToken(CString(value), Newline + rest);
  }

  /** The last line of a record, cut at its NULs, behind the previous line's newline. */
  lemma LastLineFields(tag: string, value: string)
    requires Nul !in tag
    ensures SplitAtNul(Newline + LineText(tag, value)) == [Newline + tag, CString(value)] + [Newline]
  {
    SplitAtNulLine(Newline, tag, value, []);
    assert Newline + LineText(tag, value) + [] == Newline + LineText(tag, value);
    assert Newline + [] == Newline;
    SplitAtNulNone(Newline);
  }

  /** A middle line behind the previous newline, cut at its NULs. */
  lemma MiddleLineFields(tag: string, value: string, rest: string)
    requires Nul !in tag
    ensures SplitAtNul(Newline + (LineText(tag, value) + rest)) == [Newline + tag, CString(value)] + SplitAtNul(Newline + rest)
  {
    SplitAtNulLine(Newline, tag, value, rest);
    Assoc(Newline, LineText(tag, value), rest);
  }

  /** Two lines, cut at their NULs: two pieces per line, then the final newline. */
  lemma TwoLineFields(tag1: string, value1: string, tag2: string, value2: string)
    requires Nul !in tag1 && Nul !in tag2
    ensures SplitAtNul(LineText(tag1, value1) + LineText(tag2, value2))
              == [tag1, CString(value1)] + [Newline + tag2, CString(value2)] + [Newline]
  {
    FirstLineFields(tag1, value1, LineText(tag2, value2));
    LastLineFields(tag2, value2);
    Assoc([tag1, CString(value1)], [Newline + tag2, CString(value2)], [Newline]);
  }

  /** Three lines, cut at their NULs: two pieces per line, then the final newline. */
  lemma ThreeLineFields(tag1: string, value1: string, tag2: string, value2: string, tag3: string, value3: string)
    requires Nul !in tag1 && Nul !in tag2 && Nul !in tag3
    ensures SplitAtNul(LineText(tag1, value1) + LineText(tag2, value2) + LineText(tag3, value3))
              == [tag1, CString(value1)] + [Newline + tag2, CString(value2)] + [Newline + tag3, CString(value3)] + [Newline]
  {
    var first, second, third := LineText(tag1, value1), LineText(tag2, value2), LineText(tag3, value3);
    Assoc(first, second, third);
    FirstLineFields(tag1, value1, second + third);
    MiddleLineFields(tag2, value2, third);
    LastLineFields(tag3, value3);
    var a, b, c, d := [tag1, CString(value1)], [Newline + tag2, CString(value2)], [Newline + tag3, CString(value3)], [Newline];
    Assoc(b, c, d);
    Assoc(a, b + c, d);
    Assoc(a, b, c);
  }

  /**
   * Cut at its NUL terminators, the record gives back its tags and values
   * in order, two pieces per line (the tag behind the previous newline, then
   * the value): the bank name and event path as C strings and the position,
   * when there is one, as its decimal rendering; the final newline is the
   * last piece.
   */
  lemma RecordTextFields(bankName: string, eventPath: string, position: int32)
    ensures SplitAtNul(RecordText(bankName, eventPath, position))
              == [BankTag, CString(bankName)] + [Newline + EventTag, CString(eventPath)]
                 + (if position != -1 then [Newline + TimestampTag, Decimal(position)] else [])
                 + [Newline]
  {
    var bank := LineText(BankTag, bankName);
    var event := LineText(EventTag, eventPath);
    if position != -1 {
      ThreeLineFields(BankTag, bankName, EventTag, eventPath, TimestampTag, Decimal(position));
    } else {
      assert RecordText(bankName, eventPath, position) == bank + event;
      TwoLineFields(BankTag, bankName, EventTag, eventPath);
    }
  }

  /**
   * Two records are the same text exactly when they hold the same bank name
   * and event path as C strings and the same position: the text determines
   * what was recorded, and nothing after a NUL matters.
   */
  lemma RecordTextInjective(bankName: string, eventPath: string, position: int32,
                            bankName': string, eventPath': string, position': int32)
    ensures RecordText(bankName, eventPath, position) == RecordText(bankName', eventPath', position')
            <==> && CString(bankName) == CString(bankName')
                 && CString(eventPath) == CString(eventPath')
                 && position == position'
  {
    if RecordText(bankName, eventPath, position) == RecordText(bankName', eventPath', position') {
      RecordFieldsAt(bankName, eventPath, position);
      RecordFieldsAt(bankName', eventPath', position');
      if position != -1 {
        DecimalInjective(position, position');
      }
    }
  }

  /** Where the values sit among the record's pieces. */
  lemma RecordFieldsAt(bankName: string, eventPath: string, position: int32)
    ensures var f := SplitAtNul(RecordText(bankName, eventPath, position));
            && |f| == (if position != -1 then 7 else 5)
            && f[1] == CString(bankName) && f[3] == CString(eventPath)
            && (position != -1 ==> f[5] == Decimal(position))
  {
    RecordTextFields(bankName, eventPath, position);
    var head := [BankTag, CString(bankName)] + [Newline + EventTag, CString(eventPath)];
    var time := if position != -1 then [Newline + TimestampTag, Decimal(position)] else [];
    var f := head + time + [Newline];
    assert f[1] == head[1] && f[3] == head[3];
    if position != -1 {
      assert f[5] == time[1];
    }
  }

  // ---------------------------------------------------------------------
  // SaveMusicState / RestoreMusicState
  // ---------------------------------------------------------------------

  /** `strcpy` of the save folder followed by `strcat` of the file name. */
  function SaveFullPath(musicStateSaveName: string): string {
    SaveDirPrefix + musicStateSaveName
  }

  /** Whether the writer adds a timestamp line: the position query did not answer -1. */
  predicate HasTimestamp(st: Player, query: TimelineQuery) {
    st.hasEventInstance && query.Position? && query.value != -1
  }

  /**
   * The file calls of `SaveMusicState`: open `save/<name>` for writing; if
   * that fails, stop there; otherwise write the record token by token and
   * close. The timeline position is queried from the engine only once the
   * file is open; `query` is that query's answer.
   */
  function SaveMusicState(musicStateSaveName: string, st: Player, opens: bool, query: TimelineQuery): (r: seq<FileCall>)
    ensures |r| >= 1 && r[0] == Open(SaveFullPath(musicStateSaveName), "w")
    ensures !opens ==> |r| == 1
    ensures opens ==> |r| == (if HasTimestamp(st, query) then 11 else 8) && r[|r| - 1] == Close
    ensures forall i :: 1 <= i < |r| - 1 ==> r[i].Write?
    ensures opens ==> Written(r) == RecordText(st.loadedBankName, st.startedEventPath, GetCurrentFMODTimelinePosition(st, query))
  {
    var open := Open(SaveFullPath(musicStateSaveName), "w");
    if !opens then [open]
    else
      var position := GetCurrentFMODTimelinePosition(st, query);
      var writes := RecordWrites(st.loadedBankName, st.startedEventPath, position);
      FramedWrites(open, writes);
      RecordWritesText(st.loadedBankName, st.startedEventPath, position);
      [open] + WriteCalls(writes) + [Close]
  }

  /** An open, one write per chunk and a close: the chunks laid end to end are what is written. */
  lemma FramedWrites(open: FileCall, chunks: seq<string>)
    requires open.Open?
    ensures var r := [open] + WriteCalls(chunks) + [Close];
            && |r| == |chunks| + 2 && r[0] == open && r[|r| - 1] == Close
            && (forall i :: 1 <= i < |r| - 1 ==> r[i].Write?)
            && Written(r) == Concat(chunks)
  {
    var w := WriteCalls(chunks);
    var r := [open] + w + [Close];
    forall i | 1 <= i < |r| - 1 ensures r[i].Write? {
      assert r[i] == w[i - 1];
    }
    WrittenAppend([open] + w, [Close]);
    WrittenAppend([open], w);
  }

  /**
   * Two successful saves leave the same bytes exactly when they recorded
   * the same bank name and event path (as C strings) and the same
   * timestamp line, or none.
   */
  lemma SavedRecordDetermines(
    name: string, st: Player, query: TimelineQuery,
    name': string, st': Player, query': TimelineQuery)
    ensures Written(SaveMusicState(name, st, true, query)) == Written(SaveMusicState(name', st', true, query'))
            <==> && CString(st.loadedBankName) == CString(st'.loadedBankName)
                 && CString(st.startedEventPath) == CString(st'.startedEventPath)
                 && HasTimestamp(st, query) == HasTimestamp(st', query')
                 && (HasTimestamp(st, query) ==> query.value == query'.value)
  {
    var p := GetCurrentFMODTimelinePosition(st, query);
    var p' := GetCurrentFMODTimelinePosition(st', query');
    assert p == p' <==> HasTimestamp(st, query) == HasTimestamp(st', query')
                        && (HasTimestamp(st, query) ==> query.value == query'.value);
    RecordTextInjective(st.loadedBankName, st.startedEventPath, p, st'.loadedBankName, st'.startedEventPath, p');
  }

  /** What the reader leaves: the file calls it made and the playback state. */
  datatype Restored = Restored(calls: seq<FileCall>, next: Player)

  /**
   * `RestoreMusicState`: open `save/<name>` for reading and, if that
   * succeeded, close it again. Nothing is read and no playback state changes.
   */
  function RestoreMusicState(musicStateSaveName: string, st: Player, opens: bool): (r: Restored)
    ensures |r.calls| >= 1 && r.calls[0] == Open(SaveFullPath(musicStateSaveName), "r")
    ensures |r.calls| == (if opens then 2 else 1)
    ensures forall i :: 0 <= i < |r.calls| ==> !r.calls[i].Write?
    ensures r.next == st
  {
    var open := Open(SaveFullPath(musicStateSaveName), "r");
    Restored(if opens then [open, Close] else [open], st)
  }

  // ---------------------------------------------------------------------
  // Engine hooks
  // ---------------------------------------------------------------------

  /** `Hook_SaveGlobalState`: save under the music-state name of the engine's save file. */
  function SaveGlobalState(engineSaveName: string, st: Player, opens: bool, query: TimelineQuery): (r: seq<FileCall>)
    ensures |r| >= 1 && r[0] == Open(SaveDirPrefix + ReplaceSavWithMusicState(engineSaveName), "w")
    ensures !opens ==> |r| == 1
    ensures opens ==> Written(r) == RecordText(st.loadedBankName, st.startedEventPath, GetCurrentFMODTimelinePosition(st, query))
  {
    SaveMusicState(ReplaceSavWithMusicState(engineSaveName), st, opens, query)
  }

  /** `Hook_RestoreGlobalState`: restore from the music-state name of the file last loaded. */
  function RestoreGlobalState(engineLoadedName: string, st: Player, opens: bool): (r: Restored)
    ensures |r.calls| >= 1 && r.calls[0] == Open(SaveDirPrefix + ReplaceSavWithMusicState(engineLoadedName), "r")
    ensures r.next == st
  {
    RestoreMusicState(ReplaceSavWithMusicState(engineLoadedName), st, opens)
  }

  /**
   * The save hook writes next to the engine's save, in the `save/` folder:
   * `save/<stem>.sav` gives `save/<stem>.musicstate.sav`.
   */
  lemma SaveGlobalStatePath(stem: string, st: Player, opens: bool, query: TimelineQuery)
    ensures SaveGlobalState(SaveDirPrefix + stem + SavSuffix, st, opens, query)[0]
              == Open(SaveDirPrefix + stem + MusicStateSuffix, "w")
  {
    var name := SaveDirPrefix + stem + SavSuffix;
    SlashSaveName(stem);
    Assoc(SaveDirPrefix, stem, MusicStateSuffix);
  }

  /**
   * The engine may fire the restore hook more than once for one load:
   * restoring any number of times leaves the playback state, and so the
   * next save, exactly as it was.
   */
  lemma {:induction false} RestoreLeavesSaveUnchanged(
    loadedName: string, st: Player, openings: seq<bool>,
    saveName: string, opens: bool, query: TimelineQuery)
    ensures RestoreAll(loadedName, st, openings) == st
    ensures SaveGlobalState(saveName, RestoreAll(loadedName, st, openings), opens, query)
              == SaveGlobalState(saveName, st, opens, query)
    decreases |openings|
  {
    if openings != [] {
      RestoreLeavesSaveUnchanged(loadedName, st, openings[1..], saveName, opens, query);
    }
  }

  /** The playback state after the restore hook fires once per entry of `openings`. */
  function RestoreAll(loadedName: string, st: Player, openings: seq<bool>): Player
    decreases |openings|
  {
    if openings == [] then st
    else RestoreAll(loadedName, RestoreGlobalState(loadedName, st, openings[0]).next, openings[1..])
  }
}

=== FILE: session.dfy ===
/**
 * Sequences of scripting-layer requests applied to the extension one after
 * the other, with the engine's outcome for each request fixed in the request
 * itself. The lemmas here hold for every such sequence: they relate the
 * bookkeeping the transitions leave to the requests that were made.
 */
module Session {
  import opened Text
  import opened Extension

  /** One request together with the engine outcomes it meets. */
  datatype Op =
    | LoadBank(bankName: string, mainLoads: bool, stringsLoads: bool)
    | StartEvent(eventPath: string, stopsPrevious: bool, instantiates: bool, starts: bool)
    | StopEvent(eventPath: string, released: bool)
    | BufferPosition(position: int32)
    | SetPaused(paused: bool, busFound: bool, pauseSet: bool)

  function Apply(baseDir: string, st: Player, op: Op): Step {
    match op
    case LoadBank(n, m, s) => LoadFMODBank(st, baseDir, n, m, s)
    case StartEvent(p, stop, inst, start) => StartFMODEvent(st, p, stop, inst, start)
    case StopEvent(p, released) => StopFMODEvent(st, p, released)
    case BufferPosition(t) => Step(Success, SetCurrentFMODTimelinePosition(st, t), [])
    case SetPaused(paused, bus, accepted) => SetFMODPausedState(st, paused, bus, accepted)
  }

  /** What one request does to the buffered position. */
  lemma ApplyPendingPosition(baseDir: string, st: Player, op: Op)
    ensures Apply(baseDir, st, op).next.restoredTimelinePosition
              == match op
                 case BufferPosition(t) => t
                 case StartEvent(_, _, _, _) => 0
                 case _ => st.restoredTimelinePosition
  {
  }

  /** What one request does to the known pause state. */
  lemma ApplyKnownPausedState(baseDir: string, st: Player, op: Op)
    ensures Apply(baseDir, st, op).next.knownPausedState
              == if op.SetPaused? && op.busFound && op.pauseSet then op.paused else st.knownPausedState
  {
  }

  /** What one request does to the recorded bank. */
  lemma ApplyLoadedBank(baseDir: string, st: Player, op: Op)
    ensures Apply(baseDir, st, op).next.loadedBankName
              == if op.LoadBank? && op.mainLoads && op.stringsLoads then op.bankName else st.loadedBankName
  {
  }

  /** The state after the requests, applied first to last. */
  function Run(baseDir: string, st: Player, ops: seq<Op>): Player
    decreases |ops|
  {
    if ops == [] then st else Run(baseDir, Apply(baseDir, st, ops[0]).next, ops[1..])
  }

  lemma {:induction false} RunSnoc(baseDir: string, st: Player, ops: seq<Op>, op: Op)
    ensures Run(baseDir, st, ops + [op]) == Apply(baseDir, Run(baseDir, st, ops), op).next
    decreases |ops|
  {
    if ops == [] {
      assert ops + [op] == [op];
      assert [op][1..] == [];
    } else {
      assert (ops + [op])[1..] == ops[1..] + [op];
      RunSnoc(baseDir, Apply(baseDir, st, ops[0]).next, ops[1..], op);
    }
  }

  // ---------------------------------------------------------------------
  // The buffered timeline position
  // ---------------------------------------------------------------------

  /**
   * The buffered position read off the requests alone: the last buffered
   * value if no event start came after it, 0 if one did, and the initial
   * value if there was neither.
   */
  function PendingPosition(initial: int32, ops: seq<Op>): int32
    decreases |ops|
  {
    if ops == [] then initial
    else
      match ops[|ops| - 1]
      case BufferPosition(t) => t
      case StartEvent(_, _, _, _) => 0
      case _ => PendingPosition(initial, ops[..|ops| - 1])
  }

  lemma {:induction false} RunPendingPosition(baseDir: string, st: Player, ops: seq<Op>)
    ensures Run(baseDir, st, ops).restoredTimelinePosition == PendingPosition(st.restoredTimelinePosition, ops)
    decreases |ops|
  {
    if ops != [] {
      var init := ops[..|ops| - 1];
      assert ops == init + [ops[|ops| - 1]];
      RunSnoc(baseDir, st, init, ops[|ops| - 1]);
      RunPendingPosition(baseDir, st, init);
      ApplyPendingPosition(baseDir, Run(baseDir, st, init), ops[|ops| - 1]);
    }
  }

  /** Once an event start has been requested, a position is pending only if buffered after it. */
  lemma PendingOnlyAfterBuffering(baseDir: string, st: Player, ops: seq<Op>, i: nat)
    requires i < |ops| && ops[i].StartEvent?
    requires forall j :: i < j < |ops| ==> !ops[j].BufferPosition?
    ensures Run(baseDir, st, ops).restoredTimelinePosition == 0
  {
    RunPendingPosition(baseDir, st, ops);
    PendingAfterStart(st.restoredTimelinePosition, ops, i);
  }

  lemma {:induction false} PendingAfterStart(initial: int32, ops: seq<Op>, i: nat)
    requires i < |ops| && ops[i].StartEvent?
    requires forall j :: i < j < |ops| ==> !ops[j].BufferPosition?
    ensures PendingPosition(initial, ops) == 0
    decreases |ops|
  {
    if i < |ops| - 1 {
      var init := ops[..|ops| - 1];
      assert init[i] == ops[i];
      PendingAfterStart(initial, init, i);
    }
  }

  // ---------------------------------------------------------------------
  // Bank, event and pause bookkeeping
  // ---------------------------------------------------------------------

  /** A request whose bank files both loaded. */
  predicate LoadedBy(op: Op, bankName: string) {
    op.LoadBank? && op.bankName == bankName && op.mainLoads && op.stringsLoads
  }

  /** A start request the engine accepted. */
  predicate StartedBy(op: Op, eventPath: string) {
    op.StartEvent? && op.eventPath == eventPath && op.starts
  }

  /**
   * The recorded bank is the initial one or the raw name of a request whose
   * bank and strings bank both loaded.
   */
  lemma {:induction false} LoadedBankWasRequested(baseDir: string, st: Player, ops: seq<Op>)
    ensures var b := Run(baseDir, st, ops).loadedBankName;
            b == st.loadedBankName || exists i :: 0 <= i < |ops| && LoadedBy(ops[i], b)
    decreases |ops|
  {
    if ops != [] {
      var next := Apply(baseDir, st, ops[0]).next;
      LoadedBankWasRequested(baseDir, next, ops[1..]);
      var b := Run(baseDir, st, ops).loadedBankName;
      if b != st.loadedBankName {
        if b == next.loadedBankName {
          assert LoadedBy(ops[0], b);
        } else {
          var i :| 0 <= i < |ops[1..]| && LoadedBy(ops[1..][i], b);
          assert ops[i + 1] == ops[1..][i];
        }
      }
    }
  }

  /**
   * The bank named by the last request whose bank and strings bank both
   * loaded, or the initial bank when there is none.
   */
  function LastLoadedBank(initial: string, ops: seq<Op>): string
    decreases |ops|
  {
    if ops == [] then initial
    else
      var last := ops[|ops| - 1];
      if last.LoadBank? && last.mainLoads && last.stringsLoads then last.bankName
      else LastLoadedBank(initial, ops[..|ops| - 1])
  }

  /** The recorded bank is exactly the one the last fully loaded request named. */
  lemma {:induction false} RunLoadedBank(baseDir: string, st: Player, ops: seq<Op>)
    ensures Run(baseDir, st, ops).loadedBankName == LastLoadedBank(st.loadedBankName, ops)
    decreases |ops|
  {
    if ops != [] {
      var init := ops[..|ops| - 1];
      assert ops == init + [ops[|ops| - 1]];
      RunSnoc(baseDir, st, init, ops[|ops| - 1]);
      RunLoadedBank(baseDir, st, init);
      ApplyLoadedBank(baseDir, Run(baseDir, st, init), ops[|ops| - 1]);
    }
  }

  /**
   * The active event is the initial one, none, or the path of a start
   * request the engine accepted.
   */
  lemma {:induction false} ActiveEventWasStarted(baseDir: string, st: Player, ops: seq<Op>)
    ensures var e := Run(baseDir, st, ops).startedEventPath;
            e == st.startedEventPath || e == ""
            || exists i :: 0 <= i < |ops| && StartedBy(ops[i], e)
    decreases |ops|
  {
    if ops != [] {
      var next := Apply(baseDir, st, ops[0]).next;
      ActiveEventWasStarted(baseDir, next, ops[1..]);
      var e := Run(baseDir, st, ops).startedEventPath;
      if e != st.startedEventPath && e != "" {
        if e == next.startedEventPath {
          assert StartedBy(ops[0], e);
        } else {
          var i :| 0 <= i < |ops[1..]| && StartedBy(ops[1..][i], e);
          assert ops[i + 1] == ops[1..][i];
        }
      }
    }
  }

  /** The pause state read off the requests: that of the last pause request the engine accepted. */
  function LastAcceptedPause(initial: bool, ops: seq<Op>): bool
    decreases |ops|
  {
    if ops == [] then initial
    else
      var last := ops[|ops| - 1];
      if last.SetPaused? && last.busFound && last.pauseSet then last.paused
      else LastAcceptedPause(initial, ops[..|ops| - 1])
  }

  lemma {:induction false} RunKnownPausedState(baseDir: string, st: Player, ops: seq<Op>)
    ensures Run(baseDir, st, ops).knownPausedState == LastAcceptedPause(st.knownPausedState, ops)
    decreases |ops|
  {
    if ops != [] {
      var init := ops[..|ops| - 1];
      assert ops == init + [ops[|ops| - 1]];
      RunSnoc(baseDir, st, init, ops[|ops| - 1]);
      RunKnownPausedState(baseDir, st, init);
      ApplyKnownPausedState(baseDir, Run(baseDir, st, init), ops[|ops| - 1]);
    }
  }
}

=== FILE: text.dfy ===
/**
 * Character-string helpers shared by the plugin model: prefix and suffix
 * tests, the view a C string function has of a string (everything before the
 * first NUL), the backslash rewrite used for file paths, the decimal rendering
 * of `std::to_string(int)`, and the splitting of a byte stream at NUL
 * terminators.
 */
module Text {

  /** The C++ `int` the plugin keeps timeline positions in. */
  type int32 = x: int | -0x8000_0000 <= x < 0x8000_0000

  const Nul: char := '\0'

  /** A string a C string function sees whole: it holds no NUL. */
  type NulFree = s: string | Nul !in s

  predicate StartsWith(s: string, prefix: string) {
    |prefix| <= |s| && s[..|prefix|] == prefix
  }

  predicate EndsWith(s: string, suffix: string) {
    |suffix| <= |s| && s[|s| - |suffix|..] == suffix
  }

  /** The characters `strlen` counts: everything before the first NUL. */
  function CString(s: string): (r: string)
    ensures Nul !in r
    ensures StartsWith(s, r)
    ensures r == s || s[|r|] == Nul
    ensures Nul !in s ==> r == s
  {
    if s == [] then []
    else if s[0] == Nul then []
    else [s[0]] + CString(s[1..])
  }

  /** The string with every backslash replaced by a forward slash, and nothing else changed. */
  function ForwardSlashes(s: string): (r: string)
    ensures |r| == |s|
    ensures forall i :: 0 <= i < |s| ==> r[i] == (if s[i] == '\\' then '/' else s[i])
    ensures '\\' !in r
    ensures '\\' !in s ==> r == s
  {
    if s == [] then []
    else [if s[0] == '\\' then '/' else s[0]] + ForwardSlashes(s[1..])
  }

  /** Concatenation regrouped to the right. */
  lemma Assoc<T>(a: seq<T>, b: seq<T>, c: seq<T>)
    ensures a + b + c == a + (b + c)
  {
  }

  /** A suffix stays a suffix when something is put in front. */
  lemma EndsWithPrepend(p: string, s: string, suffix: string)
    requires EndsWith(s, suffix)
    ensures EndsWith(p + s, suffix)
  {
    assert (p + s)[|p + s| - |suffix|..] == s[|s| - |suffix|..];
  }

  /** The backslash rewrite leaves a backslash-free suffix in place. */
  lemma ForwardSlashesKeepsSuffix(s: string, suffix: string)
    requires '\\' !in suffix && EndsWith(s, suffix)
    ensures EndsWith(ForwardSlashes(s), suffix)
  {
    var r := ForwardSlashes(s);
    var k := |s| - |suffix|;
    forall i | 0 <= i < |suffix| ensures r[k..][i] == suffix[i] {
      assert s[k + i] == suffix[i];
    }
  }

  // ---------------------------------------------------------------------
  // std::to_string(int)
  // ---------------------------------------------------------------------

  predicate IsDigit(c: char) {
    '0' <= c <= '9'
  }

  predicate AllDigits(s: string) {
    forall i :: 0 <= i < |s| ==> IsDigit(s[i])
  }

  function DigitChar(d: nat): (c: char)
    requires d < 10
    ensures IsDigit(c)
  {
    ('0' as int + d) as char
  }

  function DigitValue(c: char): (d: nat)
    requires IsDigit(c)
    ensures d < 10
  {
    c as int - '0' as int
  }

  /** The decimal digits of `n`, most significant first, without leading zeros. */
  function Digits(n: nat): (r: string)
    ensures 1 <= |r|
    ensures AllDigits(r)
    ensures |r| > 1 ==> r[0] != '0'
    ensures n > 0 ==> r[0] != '0'
    decreases n
  {
    if n < 10 then [DigitChar(n)]
    else Digits(n / 10) + [DigitChar(n % 10)]
  }

  /** `std::to_string` of an integer: an optional minus sign and the digits. */
  function Decimal(n: int): (r: string)
    ensures r != []
    ensures Nul !in r
    ensures r[0] == '-' <==> n < 0
    ensures IsDecimal(r) && (|r| > 1 && r[0] != '-' ==> r[0] != '0')
    ensures r[0] == '-' ==> |r| >= 2 && r[1] != '0'
  {
    if n < 0 then "-" + Digits(-n) else Digits(n)
  }

  /** The strings `Decimal` can produce the shape of: a sign, then digits. */
  predicate IsDecimal(s: string) {
    || (1 <= |s| && AllDigits(s))
    || (2 <= |s| && s[0] == '-' && AllDigits(s[1..]))
  }

  function ParseDigits(s: string): nat
    requires AllDigits(s)
  {
    if s == [] then 0
    else 10 * ParseDigits(s[..|s| - 1]) + DigitValue(s[|s| - 1])
  }

  /** Reads back a rendered decimal; the inverse of `Decimal`. */
  function ParseDecimal(s: string): (n: int)
    requires IsDecimal(s)
  {
    if s[0] == '-' then -(ParseDigits(s[1..]) as int) else ParseDigits(s)
  }

  lemma {:induction false} DigitsRoundTrip(n: nat)
    ensures ParseDigits(Digits(n)) == n
    decreases n
  {
    if n >= 10 {
      var s := Digits(n);
      assert s[..|s| - 1] == Digits(n / 10);
      DigitsRoundTrip(n / 10);
    }
  }

  /** The decimal rendering of an integer determines the integer. */
  lemma DecimalRoundTrip(n: int)
    ensures IsDecimal(Decimal(n))
    ensures ParseDecimal(Decimal(n)) == n
  {
    if n < 0 {
      assert Decimal(n)[1..] == Digits(-n);
      DigitsRoundTrip(-n);
    } else {
      DigitsRoundTrip(n);
    }
  }

  lemma DecimalInjective(m: int, n: int)
    requires Decimal(m) == Decimal(n)
    ensures m == n
  {
    DecimalRoundTrip(m);
    DecimalRoundTrip(n);
  }

  // ---------------------------------------------------------------------
  // Byte streams of NUL-terminated tokens
  // ---------------------------------------------------------------------

  /** The concatenation of the chunks, in order. */
  function Concat(chunks: seq<string>): (r: string)
    ensures |chunks| == 1 ==> r == chunks[0]
  {
    if chunks == [] then [] else chunks[0] + Concat(chunks[1..])
  }

  lemma {:induction false} ConcatAppend(a: seq<string>, b: seq<string>)
    ensures Concat(a + b) == Concat(a) + Concat(b)
  {
    if a != [] {
      assert (a + b)[1..] == a[1..] + b;
      ConcatAppend(a[1..], b);
    } else {
      assert a + b == b;
    }
  }

  /**
   * The pieces of `s` between NUL characters, in order: `k` NULs give
   * `k + 1` pieces, none of which holds a NUL.
   */
  function SplitAtNul(s: string): (r: seq<string>)
    ensures |r| >= 1
    ensures forall i :: 0 <= i < |r| ==> Nul !in r[i]
  {
    if s == [] then [[]]
    else
      var rest := SplitAtNul(s[1..]);
      if s[0] == Nul then [[]] + rest
      else [[s[0]] + rest[0]] + rest[1..]
  }

  lemma {:induction false} SplitAtNulNone(s: string)
    requires Nul !in s
    ensures SplitAtNul(s) == [s]
  {
    if s != [] {
      SplitAtNulNone(s[1..]);
      assert [s[0]] + s[1..] == s;
    }
  }

  /** A NUL-terminated token comes back as one piece, followed by the rest. */
  lemma {:induction false} SplitAtNulToken(a: string, b: string)
    requires Nul !in a
    ensures SplitAtNul(a + [Nul] + b) == [a] + SplitAtNul(b)
  {
    if a == [] {
      assert a + [Nul] + b == [Nul] + b;
      assert ([Nul] + b)[1..] == b;
    } else {
      var s := a + [Nul] + b;
      assert s[0] == a[0];
      assert s[1..] == a[1..] + [Nul] + b;
      SplitAtNulToken(a[1..], b);
      assert [a[0]] + a[1..] == a;
    }
  }
}
